=== FILE: README.md ===
# Holiday calendar — a Dafny model

The holiday-project has three parts: a browser view, the query client it calls, and a Django back end.

- **Browser view.** The `HolidayList` React component lets a user pick a country, a year, an optional month, an optional holiday type and a free-text search. It asks the back end for matching holidays, shows them ten per page with a page-number bar, and opens a detail dialog for one of them.
- **Query client.** `fetchHolidays` in `api.js` builds the query parameters and issues the GET. It turns every failure into an empty list.
- **Back end.** A Django view, `HolidayView.get`, applies defaults to the query. It answers from a cache keyed by the query when it can. Otherwise it calls the upstream Calendarific API, filters by name, caches the list and returns it.

This project models that logic as pure Dafny functions over immutable values:

| file | module | models |
|---|---|---|
| `optional.dfy` | `Optional` | `null`/`undefined`/`None` and string truthiness, shared by both tiers |
| `text.dfy` | `Text` | split/join on a separator (with a round-trip lemma), ASCII lower-casing, substring search |
| `holiday.dfy` | `Holidays` | the holiday record |
| `pagination.dfy` | `Pagination` | page count, `Array.prototype.slice`, page slices, Previous/Next, page-number window and ellipses |
| `api_client.dfy` | `ApiClient` | `fetchHolidays`: parameter object, 2xx/failure handling |
| `holiday_list.dfy` | `HolidayList` | the component's state record, the begin/complete halves of `handleSearch`, every user action as a reducer `Step`, and the cursor invariant |
| `holiday_view.dfy` | `HolidayView` | `HolidayView.get`: defaults, cache key, upstream URL, name filter, cache-hit rule, error response |
| `end_to_end.dfy` | `EndToEnd` | the client's parameters read by the back end, and the back end's responses seen by the view |

Some things are parameters rather than code:

- **HTTP exchanges.** Each one is a function parameter: `send` from parameters to transport outcome on the client, and `fetch` from URL to upstream outcome on the server.
- **Environment values.** `BASE_URL` and `API_KEY` are string parameters.
- **The cache.** It is a map passed in and returned.

Two behaviours of the code that a reader of the view might not expect. The model follows the code in both.

- **Enter key.** The Search button is disabled while a search is loading (`HolidayList.jsx:189`). The Enter-key handler checks only `isFormValid` (`HolidayList.jsx:181`), so it starts a second search while the first is still in flight (`SearchGating`). Each answer settles on its own; when the first answer settles before the second, the second one resets the cursor to page 1 and replaces the results (`LateAnswerRewinds`). The model's `Settle` action allows the other order too.
- **Transport failures.** The view sets its error message when the awaited call throws (`HolidayList.jsx:97-99`). A failed request never reaches that path: `fetchHolidays` catches every failure and returns `[]` (`api.js:17-20`). So the view shows an empty result with no error (`FailedRequestLooksEmpty`). The message appears only for a 2xx answer that is not an array. The back end sends such an answer only when the upstream `holidays` entry is not a list and no search text is given (`EndToEnd.NonListShowsError`). While every value it serves is a list, the view never shows the message (`EndToEnd.NoErrorShownAgainstBackend`): each answer is then either a 200 list or a 500 that axios rejects.

The cache key writes an absent optional value as `all`. So a request with `month=all` shares its cache entry with a request without a month, although the two build different upstream URLs (`HolidayView.CacheKeyFalsyIsAll`).

## Model

| member | source | states |
|---|---|---|
| `Pagination.TotalPages` | frontendView/src/UI/HolidayList.jsx:108 | the page count is the least `t` with `n <= 10*t`; it is 0 exactly when there are no results |
| `Pagination.SliceIndex` | frontendView/src/UI/HolidayList.jsx:109-112 | slice arguments become positions: negatives count from the end, and both ends clamp to the length |
| `Pagination.JsSlice` | frontendView/src/UI/HolidayList.jsx:109-112 | `slice` with in-range arguments is the ordinary subsequence; an empty range gives `[]` |
| `Pagination.PageSlice` | frontendView/src/UI/HolidayList.jsx:109-112 | a page never holds more than 10 items, all from the list; for a cursor of at least 1 it is the list from `(p-1)*10` up to `10p`, cut at the end of the list; a cursor past the last page gives nothing |
| `Pagination.PageSliceContents` | frontendView/src/UI/HolidayList.jsx:109-112 | page `p` of `1..totalPages` is `items[(p-1)*10 .. min(10p, n)]`; every page but the last has 10 items; the last has `n mod 10` items, or 10 when that is 0 |
| `Pagination.PageSliceBeyondEnd` | frontendView/src/UI/HolidayList.jsx:109-112 | a cursor past the last page shows nothing |
| `Pagination.PagesThroughIsPrefix` | frontendView/src/UI/HolidayList.jsx:109-112 | pages `1..k` read in order are the first `min(10k, n)` results |
| `Pagination.PagesPartition` | frontendView/src/UI/HolidayList.jsx:108-112 | pages `1..totalPages` concatenated give back the result list exactly |
| `Pagination.PageOfIndex` | frontendView/src/UI/HolidayList.jsx:108-112 | result `i` is on page `i/10 + 1` at position `i mod 10`, and that page exists |
| `Pagination.PrevPage` | frontendView/src/UI/HolidayList.jsx:270-271 | Previous never goes below 1, never moves forward, and stays put exactly on page 1 |
| `Pagination.NextPage` | frontendView/src/UI/HolidayList.jsx:298-299 | Next never passes `totalPages`, never moves back, and stays put exactly on the last page |
| `Pagination.NavigationStaysInRange` | frontendView/src/UI/HolidayList.jsx:266-305 | with at least one page, both buttons keep the cursor within `1..totalPages` |
| `Pagination.NavigationInverse` | frontendView/src/UI/HolidayList.jsx:266-305 | away from the boundaries, Next undoes Previous and Previous undoes Next |
| `Pagination.WindowThrough` | frontendView/src/UI/HolidayList.jsx:280-281 | the filtered prefix `1..k` is strictly increasing, and holds exactly the shown pages up to `k` |
| `Pagination.PageWindow` | frontendView/src/UI/HolidayList.jsx:280-281 | the page-number list is strictly increasing within `1..totalPages`; `p` is in it iff `p` is 1, `p` is the last page, or `p` is within 2 of the cursor |
| `Pagination.WindowEndpoints` | frontendView/src/UI/HolidayList.jsx:280-281 | with at least one page, the list starts with 1 and ends with `totalPages` |
| `Pagination.Links` | frontendView/src/UI/HolidayList.jsx:282-292 | one link per listed page, in the list's order |
| `Pagination.SkippedPageHidden` | frontendView/src/UI/HolidayList.jsx:280-284 | a page strictly between two neighbouring links is one the filter hides |
| `Pagination.EllipsisMarksGaps` | frontendView/src/UI/HolidayList.jsx:280-284 | an ellipsis precedes link `i > 0` exactly when its page exceeds the previous one by more than 1, and every page skipped there is hidden |
| `Pagination.AtMostTwoEllipses` | frontendView/src/UI/HolidayList.jsx:280-284 | with the cursor on a real page, an ellipsis can only follow the first link or precede the last one |
| `HolidayList.Init` | frontendView/src/UI/HolidayList.jsx:8-17 | the mounted view selects country US and year 2024, no month, no type and an empty search; it has a valid form, no results, page 1, no error, no dialog, and is not loading |
| `HolidayList.Visible` | frontendView/src/UI/HolidayList.jsx:109-112 | the cards shown are at most 10 holidays of the result list, at least one when the list is non-empty and the cursor valid, and exactly the current page's stretch of the list |
| `HolidayList.IsFormValid` | frontendView/src/UI/HolidayList.jsx:114 | the form is valid exactly when both required selections are present, whatever their values, even empty ones |
| `HolidayList.BeginSearch` | frontendView/src/UI/HolidayList.jsx:74-77 | starting a search sets loading, clears the error, and leaves filters, results, cursor and dialog alone |
| `HolidayList.CompleteSearch` | frontendView/src/UI/HolidayList.jsx:91-102 | an array replaces the results in order and rewinds to page 1, leaving the error as it was; anything else keeps results and cursor and sets the fixed error message; loading always ends; filters and dialog are untouched |
| `HolidayList.Classify` | frontendView/src/UI/HolidayList.jsx:91-93 | the data counts as an array exactly when it is a JSON array, and then its items are kept |
| `HolidayList.Outcome` | frontendView/src/UI/HolidayList.jsx:81-93 | the `try` block throws exactly when the country or year selection is null: reading `.value` off the null selection fails before `fetchHolidays` is called, and `fetchHolidays` itself never throws; otherwise the client's answer is classified |
| `HolidayList.Search` | frontendView/src/UI/HolidayList.jsx:74-103 | a whole search ends loading and keeps filters and dialog; there is no error exactly when the outcome is an array, and then that array is shown from a valid page 1; otherwise the old results and cursor stay with the fixed message, as they do for an invalid form |
| `HolidayList.StartsSearch` | frontendView/src/UI/HolidayList.jsx:180-189 | a search starts only from a valid form; the button never starts one while loading; Enter starts one exactly when the form is valid |
| `HolidayList.PreviousPage` | frontendView/src/UI/HolidayList.jsx:270 | Previous changes only the cursor |
| `HolidayList.NextPageOf` | frontendView/src/UI/HolidayList.jsx:298 | Next changes only the cursor, clamped to this state's page count |
| `HolidayList.GoToPage` | frontendView/src/UI/HolidayList.jsx:286 | a page-number button sets the cursor to its page and changes nothing else |
| `HolidayList.SelectHoliday` | frontendView/src/UI/HolidayList.jsx:243 | clicking a card opens the dialog on that holiday and changes nothing else |
| `HolidayList.DismissHoliday` | frontendView/src/UI/HolidayList.jsx:316-324 | both close paths clear the dialog and change nothing else |
| `HolidayList.Enabled` | frontendView/src/UI/HolidayList.jsx:187-324 | Previous, Next and page numbers are offered only when not loading and with more than one page; Previous never on page 1 and Next never on the last page; an offered page number lies in `1..totalPages`; cards are offered only when not loading; a selectable card is one of the results; an answer may settle at any time, and the optional filters and Enter are always available |
| `HolidayList.Step` | frontendView/src/UI/HolidayList.jsx:74-324 | each action has its effect: a filter edit sets its filter, a started search sets loading and clears the error, a press that does not start a search changes nothing, a settled array replaces the results and resets the cursor to 1, a settled non-array sets the message, Previous and Next move the cursor to PrevPage and NextPage, GoTo sets it, Select opens the dialog and Dismiss closes it; and the frame: only a settled array replaces the results, only filter edits change filters, only the search halves change loading and error, only navigation and a settled array move the cursor, only Select and Dismiss change the dialog |
| `HolidayList.StepPreservesValid` | frontendView/src/UI/HolidayList.jsx:266-305 | every action the rendered view offers keeps `1 <= currentPage <= max(1, totalPages)` |
| `HolidayList.RunPreservesValid` | frontendView/src/UI/HolidayList.jsx:74-324 | the cursor invariant holds along any sequence of offered actions |
| `HolidayList.DialogIsIndependent` | frontendView/src/UI/HolidayList.jsx:313-324 | only Select and Dismiss change the dialog, and they change only the dialog |
| `HolidayList.DismissUndoesSelect` | frontendView/src/UI/HolidayList.jsx:316-324 | dismissing right after selecting on a closed dialog restores the state |
| `HolidayList.SearchGating` | frontendView/src/UI/HolidayList.jsx:180-194 | the button starts a search iff the form is valid and nothing is loading; Enter starts one iff the form is valid, even while loading; an invalid form starts nothing |
| `HolidayList.NavigationNoOpAtBoundary` | frontendView/src/UI/HolidayList.jsx:269-302 | Previous is a no-op exactly on page 1, and Next exactly on the last page |
| `HolidayList.SearchReplacesResults` | frontendView/src/UI/HolidayList.jsx:74-102 | a search answered by an array shows exactly that array from page 1, with no error and loading ended |
| `HolidayList.SearchRejectsNonArray` | frontendView/src/UI/HolidayList.jsx:91-102 | a 2xx non-array answer keeps the old results and cursor, shows the error, and ends loading |
| `HolidayList.FailedRequestLooksEmpty` | frontendView/src/UI/HolidayList.jsx:91-101 | a failed request ends exactly like a successful empty answer: no results, page 1, no error |
| `HolidayList.LateAnswerRewinds` | frontendView/src/UI/HolidayList.jsx:180-184 | two Enter-key searches, the first answered with more than 20 results, the user on page 3, then the second answer: every step is offered, and the view ends on page 1 showing the second answer |
| `HolidayList.TwentyFiveResults` | frontendView/src/UI/HolidayList.jsx:107-112 | 25 results give 3 pages; page 1 shows results 1-10 and page 3 results 21-25; Next is a no-op on page 3 and Previous on page 1 |
| `ApiClient.Spread` | frontendView/src/api/api.js:8-10 | an optional key is present iff its argument is truthy, and then it holds the argument unchanged |
| `ApiClient.BuildParams` | frontendView/src/api/api.js:5-11 | `country` and `year` are always sent as given; `month`, `search` and `type` are sent iff truthy, unchanged; no other key is ever added |
| `ApiClient.FetchHolidays` | frontendView/src/api/api.js:3-21 | a 2xx reply returns its data unchanged, whatever its shape; any other status or a network error returns `[]` |
| `ApiClient.FailureLooksEmpty` | frontendView/src/api/api.js:17-20 | a failed call returns the same as a successful empty answer |
| `ApiClient.MonthWithoutSearch` | frontendView/src/api/api.js:5-11 | month "5" with an empty search sends `month=5` and no `search` |
| `HolidayView.Lookup` | backend_for_api/api/views.py:14-16 | an optional query value is present iff its key is, with the key's value |
| `HolidayView.GetOr` | backend_for_api/api/views.py:12-13 | the default replaces only a missing key; a present key keeps its value |
| `HolidayView.ReadQuery` | backend_for_api/api/views.py:12-16 | a missing country is "US" and a missing year is "2024"; a present key keeps its value, even an empty one; month, search and type are None iff absent |
| `HolidayView.CacheKeyFields` | backend_for_api/api/views.py:17 | the key splits back into "holidays" and its five fields when no field holds `_` |
| `HolidayView.CacheKey` | backend_for_api/api/views.py:17 | the key is "holidays" and country, year, month, type and search joined by `_`, each falsy optional written "all" |
| `HolidayView.CacheKeyFalsyIsAll` | backend_for_api/api/views.py:17 | absent and empty optional values give the same key, and so does the literal "all" |
| `HolidayView.UpstreamParams` | backend_for_api/api/views.py:24-28 | the upstream parameters are `api_key`, `country`, `year` in that order, then `month` iff truthy, then `type` iff truthy; `search` never appears |
| `HolidayView.QueryRoundTrip` | backend_for_api/api/views.py:24-28 | a query string joined from parameters whose keys and values hold no `&` or `=` splits back into the same parameters; nothing is escaped, so a value holding `&` or `=` would read back as extra parameters |
| `HolidayView.UpstreamUrl` | backend_for_api/api/views.py:24-28 | the upstream URL is `BASE_URL`, `?` and exactly the upstream parameters written as `key=value` and joined by `&`, with no escaping |
| `HolidayView.SearchNotSentUpstream` | backend_for_api/api/views.py:24-28 | the upstream URL does not depend on the search text |
| `HolidayView.ExtractHolidays` | backend_for_api/api/views.py:36 | a missing `response` or `holidays` entry reads as an empty list; a present `holidays` value is taken as is, list or not; a body or `response` value that is not an object raises |
| `HolidayView.NameMatches` | backend_for_api/api/views.py:38 | a match needs a name at least as long as the search; the empty search matches every name, and a name matches a search equal to it up to case; `MatchInLongerName` adds that the search may occur anywhere in the name |
| `HolidayView.MatchInLongerName` | backend_for_api/api/views.py:38 | `in` is a substring test: a name that matches still matches with any text added before and after it |
| `HolidayView.FilterByName` | backend_for_api/api/views.py:38 | the filtered list is an order-preserving subsequence; it keeps every occurrence of a holiday whose lowercased name contains the lowercased search, and nothing else |
| `HolidayView.FilterAppend` | backend_for_api/api/views.py:38 | filtering a concatenation is the concatenation of the filtered parts |
| `HolidayView.FilterIdempotent` | backend_for_api/api/views.py:38 | filtering twice by the same text is filtering once |
| `HolidayView.ApplySearch` | backend_for_api/api/views.py:37-38 | a falsy search returns the list unchanged; a truthy one filters by name |
| `HolidayView.SearchPayload` | backend_for_api/api/views.py:37-38 | a falsy search keeps any value as it is; a truthy one filters a list by name, turns an empty object or string into an empty list, and raises on any other value |
| `HolidayView.Answer` | backend_for_api/api/views.py:35-38 | a body whose extraction raises raises; otherwise the search step decides |
| `HolidayView.CacheHit` | backend_for_api/api/views.py:18-19 | a hit needs an entry; a cached list hits exactly when non-empty; an empty object or string and a falsy scalar miss |
| `HolidayView.Get` | backend_for_api/api/views.py:11-45 | status 200 exactly with data, otherwise 500; a hit answers the cached value and keeps the cache; a miss whose body yields a value answers and caches it under the key; a miss that raises outside the handler answers Django's error page; a request exception answers the fixed error body; neither failure touches the cache |
| `HolidayView.RepeatIsServedFromCache` | backend_for_api/api/views.py:17-41 | after a truthy answer, the same request gets the same response from the cache, whatever the upstream says now |
| `HolidayView.EmptyEntryIsRefetched` | backend_for_api/api/views.py:18-21 | a falsy cached value is a miss: the response is the same as with no entry |
| `HolidayView.GetTouchesOnlyItsKey` | backend_for_api/api/views.py:39 | a request changes no cache entry but its own key's |
| `HolidayView.NonListHolidays` | backend_for_api/api/views.py:36-41 | a non-empty object as `holidays` is cached and answered with 200 when there is no search, and ends in a 500 with nothing cached when there is one |
| `EndToEnd.AsResponseData` | backend_for_api/api/views.py:41-45 | the client sees an array exactly for a list payload, with the same items, and the error object exactly for the error body |
| `EndToEnd.Serve` | backend_for_api/api/views.py:11-45 | the back end always replies; the client's call resolves exactly when the view answers with data; the reply carries the view's body as the client decodes it |
| `EndToEnd.ParamsReadBack` | frontendView/src/api/api.js:5-11 | the back end reads the client's country and year as given, and each optional value exactly when it was truthy |
| `EndToEnd.FalsyArgumentsShareCacheKey` | backend_for_api/api/views.py:17 | the key of a client request writes every falsy optional argument as "all" |
| `EndToEnd.NoErrorShownAgainstBackend` | frontendView/src/UI/HolidayList.jsx:91-101 | while the key's cached entry and the upstream `holidays` entry are lists, a search from a valid form ends on page 1 with no error |
| `EndToEnd.QueryOf` | frontendView/src/UI/HolidayList.jsx:81-87 | the back end reads a search's country and year as selected, and its search text exactly when non-empty |
| `EndToEnd.NonListShowsError` | frontendView/src/UI/HolidayList.jsx:91-99 | with no search text and a non-empty object as the upstream `holidays` entry, the view keeps its results and shows the error |
| `EndToEnd.UpstreamFailureShowsEmpty` | backend_for_api/api/views.py:43-45 | an upstream failure on a cache miss ends in the view as an empty list with no error |

## Left out

- Rendering is not modelled: the JSX layout, styles, icons, and the internals of `react-select` and the dialog. The model keeps only what they decide. The two required selects cannot be cleared. Cards and the pagination bar render only when not loading, and the bar only with more than one page. Only the listed page numbers can be clicked. These are the guards in `HolidayList.Enabled`.
- Asynchrony is modelled only by interleaving. `handleSearch` is split into `BeginSearch` and `CompleteSearch`. A second Enter-key search while loading is a second `Press`, and each answer is a `Settle` that may come at any time. Requests carry no identity, so a `Settle` does not say which request it answers; the last array answer decides the results and the cursor; a later non-array answer only sets the error.
- The axios GET is a parameter `send`. Serialising parameters into the URL, URL encoding and decoding, and the fixed endpoint `http://127.0.0.1:8000/holidays/` are not modelled.
- `requests.get` and `.json()` are a parameter `fetch` that yields a decoded body or a `RequestException`. The 10-second timeout is one such exception.
- The Django cache store is a map. The 86400-second expiry is not modelled.
- `os.getenv` is not modelled. `BASE_URL` and `API_KEY` are parameters; an unset variable would print as "None" in the URL.
- Exceptions that the `except RequestException` at views.py:43 does not catch (the `AttributeError` of line 36 and the `TypeError` of line 38) are modelled as one response, Django's error page with status 500. A holiday is always a record with a `name`. So a list element that is not such an object is not modelled, nor the `KeyError` or `TypeError` it would raise under a search.
- HolidayView.ExtractHolidays: a `holidays` value that is not a list is kept only as empty or non-empty collection (object or string) or as a scalar with its truthiness. What it holds is not modelled; the client sees any of them as a non-array.
- HolidayView.ReadQuery: the query dictionary holds one value per key. Django's `QueryDict` keeps every value of a repeated key and `get` returns the last. The model takes that last value as the key's only value.
- Logging (`console.log`, `console.error`, `print`) is not modelled.
- The static option tables (countries, years, months, holiday types) are not modelled. The model takes any selected value.
- `App.jsx` only mounts the component and is not part of this model.
- Text.Lower: lower-cases ASCII letters only. Python's `str.lower()` also folds other Unicode letters, so `FilterByName` matches case-insensitively only for ASCII.
- HolidayList.Outcome: `Threw` models only the `TypeError` from a null selection. Any other exception inside the `try` is outside the model.

=== FILE: api_client.dfy ===
/** The front end's query client (`fetchHolidays`): it builds the query
    parameters from five arguments, issues one GET to the back end, and turns
    any failure into an empty list. The HTTP exchange itself is a parameter:
    `send` maps the parameters to what the transport delivered. */
module ApiClient {
  import opened Optional
  import opened Holidays

  /** The `params` object handed to axios, keyed by property name. */
  type Params = map<string, string>

  /** The decoded JSON body of a response: an array of holidays, an
      `{"error": ...}` object, or any other value. */
  datatype ResponseData = JsonArray(items: seq<Holiday>) | JsonError(error: string) | JsonOther

  datatype Reply = Reply(status: int, data: ResponseData)

  /** What one HTTP exchange produced: a reply with some status, or no reply at all. */
  datatype Transport = Replied(reply: Reply) | NetworkError

  /** The keys `fetchHolidays` may send. */
  const ParamKeys: set<string> := {"country", "year", "month", "search", "type"}

  /** An optional argument spread into the object only when truthy (`...(month && { month })`). */
  function Spread(key: string, arg: Option<string>): (p: Params)
    ensures key in p <==> Truthy(arg)
    ensures p.Keys <= {key}
    ensures key in p ==> p[key] == arg.value
  {
    if Truthy(arg) then map[key := arg.value] else map[]
  }

  /** The request parameters: `country` and `year` always, `month`, `search` and
      `type` only when their argument is truthy, and nothing else. */
  function BuildParams(country: string, year: string, month: Option<string>,
                       search: Option<string>, kind: Option<string>): (p: Params)
    ensures "country" in p && p["country"] == country
    ensures "year" in p && p["year"] == year
    ensures "month" in p <==> Truthy(month)
    ensures "search" in p <==> Truthy(search)
    ensures "type" in p <==> Truthy(kind)
    ensures "month" in p ==> p["month"] == month.value
    ensures "search" in p ==> p["search"] == search.value
    ensures "type" in p ==> p["type"] == kind.value
    ensures p.Keys <= ParamKeys
  {
    map["country" := country, "year" := year]
      + Spread("month", month) + Spread("search", search) + Spread("type", kind)
  }

  /** axios resolves only on a 2xx status; any other status, like a network
      error, rejects and lands in the `catch`. */
  predicate Resolves(t: Transport) {
    t.Replied? && 200 <= t.reply.status < 300
  }

  /** `fetchHolidays(country, year, month, search, type)`. */
  function FetchHolidays(country: string, year: string, month: Option<string>,
                         search: Option<string>, kind: Option<string>,
                         send: Params -> Transport): (r: ResponseData)
    ensures Resolves(send(BuildParams(country, year, month, search, kind))) ==>
              r == send(BuildParams(country, year, month, search, kind)).reply.data
    ensures !Resolves(send(BuildParams(country, year, month, search, kind))) ==> r == JsonArray([])
  {
    var outcome := send(BuildParams(country, year, month, search, kind));
    if Resolves(outcome) then outcome.reply.data else JsonArray([])
  }

  /** A failed request cannot be told apart from a successful empty answer. */
  lemma FailureLooksEmpty(country: string, year: string, month: Option<string>,
                          search: Option<string>, kind: Option<string>,
                          send: Params -> Transport, status: int)
    requires !Resolves(send(BuildParams(country, year, month, search, kind)))
    requires 200 <= status < 300
    ensures FetchHolidays(country, year, month, search, kind, send)
         == FetchHolidays(country, year, month, search, kind, _ => Replied(Reply(status, JsonArray([]))))
  {
  }

  /** A month with an empty search text: `month` is sent, `search` is not. */
  lemma MonthWithoutSearch(country: string, year: string, kind: Option<string>)
    ensures var p := BuildParams(country, year, Some("5"), Some(""), kind);
      "month" in p && p["month"] == "5" && "search" !in p
  {
  }
}

=== FILE: end_to_end.dfy ===
/** The two tiers wired together: the front end's parameters arrive as the
    back end's query dictionary, and the back end's response is what the
    front end's transport delivers. */
module EndToEnd {
  import opened Optional
  import opened Holidays
  import ApiClient
  import HolidayList
  import HolidayView

  /** The JSON the back end's response decodes to on the client: a list
      payload is an array, the error body is the error object, and any other
      payload or Django's error page is some other value. */
  function AsResponseData(b: HolidayView.Body): (d: ApiClient.ResponseData)
    ensures d.JsonArray? <==> b.Data? && b.payload.HolidayArray?
    ensures d.JsonArray? ==> d.items == b.payload.items
    ensures d.JsonError? <==> b.ErrorBody?
    ensures b.ErrorBody? ==> d == ApiClient.JsonError(b.error)
  {
    match b
    case Data(HolidayArray(items)) => ApiClient.JsonArray(items)
    case Data(_) => ApiClient.JsonOther
    case ErrorBody(e) => ApiClient.JsonError(e)
    case ServerErrorPage => ApiClient.JsonOther
  }

  /** The back end seen as the client's transport, for one cache state and one upstream. */
  function Serve(cache: HolidayView.Cache, baseUrl: string, apiKey: string,
                 fetch: string -> HolidayView.Upstream): (send: ApiClient.Params -> ApiClient.Transport)
    ensures forall p :: send(p).Replied?
    ensures forall p :: ApiClient.Resolves(send(p)) <==> HolidayView.Get(p, cache, baseUrl, apiKey, fetch).0.body.Data?
    ensures forall p :: send(p).reply.data == AsResponseData(HolidayView.Get(p, cache, baseUrl, apiKey, fetch).0.body)
  {
    p => var resp := HolidayView.Get(p, cache, baseUrl, apiKey, fetch).0;
         ApiClient.Replied(ApiClient.Reply(resp.status, AsResponseData(resp.body)))
  }

  /** What the back end reads is what the client meant: the required values as
      given, each optional one exactly when it was truthy. */
  lemma ParamsReadBack(country: string, year: string, month: Option<string>,
                       search: Option<string>, kind: Option<string>)
    ensures HolidayView.ReadQuery(ApiClient.BuildParams(country, year, month, search, kind))
         == HolidayView.Query(country, year, KeepTruthy(month), KeepTruthy(search), KeepTruthy(kind))
  {
  }

  /** So a falsy optional on the client and an absent one reach the same cache entry. */
  lemma FalsyArgumentsShareCacheKey(country: string, year: string, month: Option<string>,
                                    search: Option<string>, kind: Option<string>)
    ensures var qr := HolidayView.ReadQuery(ApiClient.BuildParams(country, year, month, search, kind));
      HolidayView.CacheKey(qr)
        == "holidays" + "_" + (country + "_" + (year + "_" + (Or(month, "all") + "_"
             + (Or(kind, "all") + "_" + Or(search, "all")))))
  {
    ParamsReadBack(country, year, month, search, kind);
    assert Or(KeepTruthy(month), "all") == Or(month, "all");
    assert Or(KeepTruthy(kind), "all") == Or(kind, "all");
    assert Or(KeepTruthy(search), "all") == Or(search, "all");
  }

  /** The key's cached entry, if any, is a holiday list, and so is the upstream
      `holidays` entry whenever the upstream body yields one. */
  predicate ListsOnly(cache: HolidayView.Cache, key: string, up: HolidayView.Upstream) {
    (key in cache ==> cache[key].HolidayArray?)
    && (up.Fetched? && HolidayView.ExtractHolidays(up.body).Some? ==>
          HolidayView.ExtractHolidays(up.body).value.HolidayArray?)
  }

  /** The parameters a search from state `s` sends, as the back end reads them. */
  function QueryOf(s: HolidayList.State): (qr: HolidayView.Query)
    requires HolidayList.IsFormValid(s)
    ensures qr.country == s.country.value && qr.year == s.year.value
    ensures qr.search == KeepTruthy(Some(s.search))
  {
    ParamsReadBack(s.country.value, s.year.value, s.month, Some(s.search), s.holidayType);
    HolidayView.ReadQuery(ApiClient.BuildParams(s.country.value, s.year.value, s.month, Some(s.search), s.holidayType))
  }

  /** While the back end only ever has holiday lists to return, the view never
      shows its error message: every answer is a 200 list or a 500 the client
      swallows into `[]`. */
  lemma NoErrorShownAgainstBackend(s: HolidayList.State, cache: HolidayView.Cache, baseUrl: string,
                                   apiKey: string, fetch: string -> HolidayView.Upstream)
    requires HolidayList.IsFormValid(s)
    requires ListsOnly(cache, HolidayView.CacheKey(QueryOf(s)), fetch(HolidayView.UpstreamUrl(baseUrl, apiKey, QueryOf(s))))
    ensures var r := HolidayList.Search(s, Serve(cache, baseUrl, apiKey, fetch));
      r.error == None && !r.loading && r.currentPage == 1 && HolidayList.Valid(r)
  {
    var send := Serve(cache, baseUrl, apiKey, fetch);
    var p := ApiClient.BuildParams(s.country.value, s.year.value, s.month, Some(s.search), s.holidayType);
    var resp := HolidayView.Get(p, cache, baseUrl, apiKey, fetch).0;
    assert send(p) == ApiClient.Replied(ApiClient.Reply(resp.status, AsResponseData(resp.body)));
    assert resp.status == 200 ==> resp.body.payload.HolidayArray?;
  }

  /** Without that, the message does appear: a search with an empty text whose
      upstream `holidays` entry is a non-empty object gets that object back with
      status 200, and the view keeps its old results and shows the error. */
  lemma NonListShowsError(s: HolidayList.State, cache: HolidayView.Cache, baseUrl: string,
                          apiKey: string, fetch: string -> HolidayView.Upstream)
    requires HolidayList.IsFormValid(s) && s.search == ""
    requires !HolidayView.CacheHit(cache, HolidayView.CacheKey(QueryOf(s)))
    requires fetch(HolidayView.UpstreamUrl(baseUrl, apiKey, QueryOf(s)))
          == HolidayView.Fetched(HolidayView.BodyObject(Some(HolidayView.ResponseObject(Some(HolidayView.NonEmptyCollection)))))
    ensures var r := HolidayList.Search(s, Serve(cache, baseUrl, apiKey, fetch));
      r.error == Some(HolidayList.FetchErrorMessage) && r.holidays == s.holidays && !r.loading
  {
    var send := Serve(cache, baseUrl, apiKey, fetch);
    var p := ApiClient.BuildParams(s.country.value, s.year.value, s.month, Some(s.search), s.holidayType);
    var resp := HolidayView.Get(p, cache, baseUrl, apiKey, fetch).0;
    assert resp == HolidayView.Response(200, HolidayView.Data(HolidayView.NonEmptyCollection));
    assert send(p) == ApiClient.Replied(ApiClient.Reply(200, ApiClient.JsonOther));
  }

  /** An upstream failure on a cache miss ends, on screen, as "no holidays found" with no error. */
  lemma UpstreamFailureShowsEmpty(s: HolidayList.State, cache: HolidayView.Cache, baseUrl: string,
                                  apiKey: string, fetch: string -> HolidayView.Upstream)
    requires HolidayList.IsFormValid(s)
    requires var qr := HolidayView.ReadQuery(ApiClient.BuildParams(s.country.value, s.year.value, s.month,
                                                                  Some(s.search), s.holidayType));
      !HolidayView.CacheHit(cache, HolidayView.CacheKey(qr))
      && fetch(HolidayView.UpstreamUrl(baseUrl, apiKey, qr)).RequestFailed?
    ensures var r := HolidayList.Search(s, Serve(cache, baseUrl, apiKey, fetch));
      r.holidays == [] && r.currentPage == 1 && r.error == None && !r.loading
  {
    var send := Serve(cache, baseUrl, apiKey, fetch);
    var p := ApiClient.BuildParams(s.country.value, s.year.value, s.month, Some(s.search), s.holidayType);
    var resp := HolidayView.Get(p, cache, baseUrl, apiKey, fetch).0;
    assert resp.status == 500;
    assert send(p) == ApiClient.Replied(ApiClient.Reply(resp.status, AsResponseData(resp.body)));
    assert !ApiClient.Resolves(send(p));
    HolidayList.FailedRequestLooksEmpty(s, send);
  }
}

=== FILE: holiday.dfy ===
/** The holiday record as the upstream holiday API delivers it. Both tiers
    pass it through untouched; only `name` is read (by the back end's search
    filter), and the front end displays the rest. */
module Holidays {
  import opened Optional

  datatype Holiday = Holiday(
    name: string,
    dateIso: string,
    kind: string,                  // the record's `type` field
    description: Option<string>)
}

=== FILE: holiday_list.dfy ===
/** The holiday search view (`HolidayList`) as an explicit state record and
    pure transitions. The asynchronous `handleSearch` is split into the part
    before the `await` (`BeginSearch`) and the part after it settles
    (`CompleteSearch`); `Step` is the reducer over every user action. */
module HolidayList {
  import opened Optional
  import opened Holidays
  import opened Pagination
  import ApiClient

  const FetchErrorMessage: string := "Failed to fetch holidays. Please try again later."

  /** Every piece of component state. Selections hold the chosen option's
      `value`; `None` is a cleared (null) selection. */
  datatype State = State(
    country: Option<string>,
    year: Option<string>,
    month: Option<string>,
    holidayType: Option<string>,
    search: string,
    holidays: seq<Holiday>,
    currentPage: int,
    loading: bool,
    error: Option<string>,
    modalHoliday: Option<Holiday>)

  /** How the awaited fetch settled, as `handleSearch` sees it. */
  datatype FetchOutcome =
    | IsArray(items: seq<Holiday>)   // `Array.isArray(data)`
    | NotArray                       // resolved with any other value
    | Threw                          // an exception inside the `try`

  /** The two ways a search is triggered. */
  datatype Trigger = SearchButton | EnterKey

  datatype Action =
    | SetCountry(country: Option<string>)
    | SetYear(year: Option<string>)
    | SetMonth(month: Option<string>)
    | SetHolidayType(holidayType: Option<string>)
    | SetSearch(text: string)
    | Press(trigger: Trigger)
    | Settle(outcome: FetchOutcome)
    | Previous
    | Next
    | GoTo(page: int)
    | Select(holiday: Holiday)
    | Dismiss

  /** The state when the component mounts. */
  function Init(): (s: State)
    ensures IsFormValid(s) && Valid(s)
    ensures !s.loading && s.error == None && s.modalHoliday == None
    ensures s.holidays == [] && TotalPagesOf(s) == 0 && Visible(s) == []
    ensures s.country == Some("US") && s.year == Some("2024")
    ensures s.month == None && s.holidayType == None && s.search == "" && s.currentPage == 1
  {
    State(Some("US"), Some("2024"), None, None, "", [], 1, false, None, None)
  }

  function TotalPagesOf(s: State): (t: nat) {
    TotalPages(|s.holidays|)
  }

  /** `paginatedHolidays`: the holidays on the current page. */
  function Visible(s: State): (shown: seq<Holiday>)
    ensures |shown| <= PageSize
    ensures forall i | 0 <= i < |shown| :: shown[i] in s.holidays
    ensures Valid(s) && |s.holidays| > 0 ==> 1 <= |shown|
    ensures s.currentPage >= 1 ==>
              shown == s.holidays[Min((s.currentPage - 1) * PageSize, |s.holidays|) .. Min(s.currentPage * PageSize, |s.holidays|)]
  {
    if Valid(s) && |s.holidays| > 0 then
      PageSliceContents(s.holidays, s.currentPage);
      PageSlice(s.holidays, s.currentPage)
    else PageSlice(s.holidays, s.currentPage)
  }

  /** `country && year`: a selection is an object, truthy whatever its value. */
  function IsFormValid(s: State): (valid: bool)
    ensures valid ==> s.country.Some? && s.year.Some?
    ensures s.country.Some? && s.year.Some? ==> valid
    ensures s.country == Some("") && s.year == Some("") ==> valid
  {
    s.country.Some? && s.year.Some?
  }

  /** The cursor invariant: on a page of the result set, or on page 1 of an empty one. */
  predicate Valid(s: State) {
    PageInRange(s.currentPage, TotalPagesOf(s))
  }

  /** The filters the user edits. */
  predicate SameFilters(a: State, b: State) {
    a.country == b.country && a.year == b.year && a.month == b.month
    && a.holidayType == b.holidayType && a.search == b.search
  }

  /** The spinner starts and the previous error is cleared. */
  function BeginSearch(s: State): (r: State)
    ensures r.loading && r.error == None
    ensures SameFilters(r, s) && r.holidays == s.holidays && r.currentPage == s.currentPage
    ensures r.modalHoliday == s.modalHoliday
  {
    s.(loading := true, error := None)
  }

  /** An array replaces the results and rewinds to page 1; anything
      else keeps the old results and shows the error; either way loading stops. */
  function CompleteSearch(s: State, outcome: FetchOutcome): (r: State)
    ensures !r.loading
    ensures outcome.IsArray? ==> r.holidays == outcome.items && r.currentPage == 1 && r.error == s.error
    ensures !outcome.IsArray? ==>
              r.holidays == s.holidays && r.currentPage == s.currentPage && r.error == Some(FetchErrorMessage)
    ensures SameFilters(r, s) && r.modalHoliday == s.modalHoliday
    ensures Valid(r) || !outcome.IsArray?
  {
    match outcome
    case IsArray(items) => s.(holidays := items, currentPage := 1, loading := false)
    case _ => s.(error := Some(FetchErrorMessage), loading := false)
  }

  /** How the view classifies what `fetchHolidays` returned. */
  function Classify(data: ApiClient.ResponseData): (o: FetchOutcome)
    ensures o.IsArray? <==> data.JsonArray?
    ensures o.IsArray? ==> o.items == data.items
    ensures !o.Threw?
  {
    if data.JsonArray? then IsArray(data.items) else NotArray
  }

  /** What the awaited call settles to: reading `country.value` or `year.value`
      off a null selection throws before any request is made. */
  function Outcome(s: State, send: ApiClient.Params -> ApiClient.Transport): (o: FetchOutcome)
    ensures o.Threw? <==> !IsFormValid(s)
  {
    if !IsFormValid(s) then Threw
    else Classify(ApiClient.FetchHolidays(s.country.value, s.year.value, s.month,
                                          Some(s.search), s.holidayType, send))
  }

  /** One whole `handleSearch` run with no other event in between: loading
      ends, and either the answer array is shown from page 1 with no error, or
      the old results stay and the error is shown. */
  function Search(s: State, send: ApiClient.Params -> ApiClient.Transport): (r: State)
    ensures !r.loading && SameFilters(r, s) && r.modalHoliday == s.modalHoliday
    ensures r.error == None <==> Outcome(s, send).IsArray?
    ensures r.error == None ==> r.holidays == Outcome(s, send).items && r.currentPage == 1 && Valid(r)
    ensures r.error != None ==>
              r.error == Some(FetchErrorMessage) && r.holidays == s.holidays && r.currentPage == s.currentPage
    ensures !IsFormValid(s) ==> r.error == Some(FetchErrorMessage)
  {
    CompleteSearch(BeginSearch(s), Outcome(s, send))
  }

  /** The button is disabled while the form is invalid or a search is loading;
      the Enter key handler checks only the form. */
  function StartsSearch(s: State, t: Trigger): (starts: bool)
    ensures starts ==> IsFormValid(s)
    ensures t == SearchButton && s.loading ==> !starts
    ensures t == EnterKey ==> (starts <==> IsFormValid(s))
  {
    match t
    case SearchButton => IsFormValid(s) && !s.loading
    case EnterKey => IsFormValid(s)
  }

  /** The Previous button: one page back, never below page 1. */
  function PreviousPage(s: State): (r: State)
    ensures r.currentPage == PrevPage(s.currentPage)
    ensures r.holidays == s.holidays && r.loading == s.loading && r.error == s.error
    ensures SameFilters(r, s) && r.modalHoliday == s.modalHoliday
  {
    s.(currentPage := PrevPage(s.currentPage))
  }

  /** The Next button: one page on, never past the last page. */
  function NextPageOf(s: State): (r: State)
    ensures r.currentPage == NextPage(s.currentPage, TotalPagesOf(s))
    ensures r.holidays == s.holidays && r.loading == s.loading && r.error == s.error
    ensures SameFilters(r, s) && r.modalHoliday == s.modalHoliday
  {
    s.(currentPage := NextPage(s.currentPage, TotalPagesOf(s)))
  }

  /** A page-number button sets the cursor to its page. */
  function GoToPage(s: State, page: int): (r: State)
    ensures r.currentPage == page
    ensures r.holidays == s.holidays && r.loading == s.loading && r.error == s.error
    ensures SameFilters(r, s) && r.modalHoliday == s.modalHoliday
  {
    s.(currentPage := page)
  }

  /** Clicking a card opens the detail dialog on it. */
  function SelectHoliday(s: State, h: Holiday): (r: State)
    ensures r.modalHoliday == Some(h)
    ensures r.(modalHoliday := s.modalHoliday) == s
  {
    s.(modalHoliday := Some(h))
  }

  /** Closing the dialog, by its button or by clicking outside it. */
  function DismissHoliday(s: State): (r: State)
    ensures r.modalHoliday == None
    ensures r.(modalHoliday := s.modalHoliday) == s
  {
    s.(modalHoliday := None)
  }

  /** The pagination bar (Previous, page numbers, Next) is rendered only when
      not loading and there is more than one page. */
  predicate PaginationShown(s: State) {
    !s.loading && TotalPagesOf(s) > 1
  }

  /** Which actions the rendered view offers in state `s`. The two required
      selects cannot be cleared; Previous and Next are disabled at their own
      boundary; a page number must be one of the rendered ones; cards are
      rendered only when not loading; the dialog exists only when open. An
      answer may settle at any time: a second search started from the keyboard
      leaves an earlier one in flight, which settles after the first `Settle`
      has already ended loading. */
  function Enabled(s: State, a: Action): (ok: bool)
    ensures ok && a.GoTo? ==> 1 <= a.page <= TotalPagesOf(s)
    ensures ok && (a.Previous? || a.Next? || a.GoTo? || a.Select?) ==> !s.loading
    ensures ok && a.Select? ==> a.holiday in s.holidays
    ensures ok && (a.Previous? || a.Next? || a.GoTo?) ==> TotalPagesOf(s) > 1
    ensures ok && a.Previous? ==> s.currentPage != 1
    ensures ok && a.Next? ==> s.currentPage != TotalPagesOf(s)
    ensures a.Settle? || a.SetMonth? || a.SetHolidayType? || a.SetSearch? || a == Press(EnterKey) ==> ok
  {
    match a
    case SetCountry(c) => c.Some?
    case SetYear(y) => y.Some?
    case SetMonth(_) => true
    case SetHolidayType(_) => true
    case SetSearch(_) => true
    case Press(t) => t == EnterKey || StartsSearch(s, t)
    case Settle(_) => true
    case Previous => PaginationShown(s) && s.currentPage != 1
    case Next => PaginationShown(s) && s.currentPage != TotalPagesOf(s)
    case GoTo(p) => PaginationShown(s) && p in PageWindow(TotalPagesOf(s), s.currentPage)
    case Select(h) => !s.loading && h in Visible(s)
    case Dismiss => s.modalHoliday.Some?
  }

  /** The reducer: the state after action `a`. Only a settled array replaces
      the results; only the filter edits change the filters; only the search
      halves change loading; only navigation and a settled array move the cursor. */
  function Step(s: State, a: Action): (r: State)
    ensures r.holidays != s.holidays ==> a.Settle? && a.outcome.IsArray?
    ensures !SameFilters(r, s) ==>
              a.SetCountry? || a.SetYear? || a.SetMonth? || a.SetHolidayType? || a.SetSearch?
    ensures r.loading != s.loading || r.error != s.error ==> a.Press? || a.Settle?
    ensures r.currentPage != s.currentPage ==> a.Settle? || a.Previous? || a.Next? || a.GoTo?
    ensures r.modalHoliday != s.modalHoliday ==> a.Select? || a.Dismiss?
    ensures a.SetCountry? ==> r.country == a.country
    ensures a.SetYear? ==> r.year == a.year
    ensures a.SetMonth? ==> r.month == a.month
    ensures a.SetHolidayType? ==> r.holidayType == a.holidayType
    ensures a.SetSearch? ==> r.search == a.text
    ensures a.Press? && StartsSearch(s, a.trigger) ==> r.loading && r.error == None
    ensures a.Press? && !StartsSearch(s, a.trigger) ==> r == s
    ensures a.Settle? ==> !r.loading
    ensures a.Settle? && a.outcome.IsArray? ==> r.holidays == a.outcome.items && r.currentPage == 1
    ensures a.Settle? && !a.outcome.IsArray? ==> r.error == Some(FetchErrorMessage)
    ensures a.Previous? ==> r.currentPage == PrevPage(s.currentPage)
    ensures a.Next? ==> r.currentPage == NextPage(s.currentPage, TotalPagesOf(s))
    ensures a.GoTo? ==> r.currentPage == a.page
    ensures a.Select? ==> r.modalHoliday == Some(a.holiday)
    ensures a.Dismiss? ==> r.modalHoliday == None
  {
    match a
    case SetCountry(c) => s.(country := c)
    case SetYear(y) => s.(year := y)
    case SetMonth(m) => s.(month := m)
    case SetHolidayType(t) => s.(holidayType := t)
    case SetSearch(text) => s.(search := text)
    case Press(t) => if StartsSearch(s, t) then BeginSearch(s) else s
    case Settle(o) => CompleteSearch(s, o)
    case Previous => PreviousPage(s)
    case Next => NextPageOf(s)
    case GoTo(p) => GoToPage(s, p)
    case Select(h) => SelectHoliday(s, h)
    case Dismiss => DismissHoliday(s)
  }

  /** Every action the view offers keeps the cursor on a real page. */
  lemma StepPreservesValid(s: State, a: Action)
    requires Valid(s) && Enabled(s, a)
    ensures Valid(Step(s, a))
  {
    match a
    case Previous =>
      NavigationStaysInRange(s.currentPage, TotalPagesOf(s));
    case Next =>
      NavigationStaysInRange(s.currentPage, TotalPagesOf(s));
    case _ =>
  }

  /** The cursor stays valid along any run of offered actions from the initial state. */
  lemma {:induction false} RunPreservesValid(s: State, actions: seq<Action>)
    requires Valid(s)
    requires EnabledRun(s, actions)
    ensures Valid(Run(s, actions))
    decreases |actions|
  {
    if |actions| > 0 {
      StepPreservesValid(s, actions[0]);
      RunPreservesValid(Step(s, actions[0]), actions[1..]);
    }
  }

  function Run(s: State, actions: seq<Action>): (r: State)
    decreases |actions|
  {
    if |actions| == 0 then s else Run(Step(s, actions[0]), actions[1..])
  }

  predicate EnabledRun(s: State, actions: seq<Action>)
    decreases |actions|
  {
    |actions| == 0 || (Enabled(s, actions[0]) && EnabledRun(Step(s, actions[0]), actions[1..]))
  }

  /** Only Select and Dismiss touch the dialog, and they touch nothing else. */
  lemma DialogIsIndependent(s: State, a: Action)
    ensures !a.Select? && !a.Dismiss? ==> Step(s, a).modalHoliday == s.modalHoliday
    ensures a.Select? ==> Step(s, a) == s.(modalHoliday := Some(a.holiday))
    ensures a.Dismiss? ==> Step(s, a) == s.(modalHoliday := None)
  {
  }

  /** Dismiss undoes Select on a closed dialog. */
  lemma DismissUndoesSelect(s: State, h: Holiday)
    requires s.modalHoliday == None
    ensures DismissHoliday(SelectHoliday(s, h)) == s
  {
  }

  /** The button refuses to start a second search while one is loading; the
      Enter key does not, so a form that is valid always starts one from the keyboard. */
  lemma SearchGating(s: State)
    ensures StartsSearch(s, SearchButton) <==> IsFormValid(s) && !s.loading
    ensures StartsSearch(s, EnterKey) <==> IsFormValid(s)
    ensures s.loading && IsFormValid(s) ==>
              Step(s, Press(SearchButton)) == s && Step(s, Press(EnterKey)) == BeginSearch(s)
    ensures !IsFormValid(s) ==> Step(s, Press(SearchButton)) == s && Step(s, Press(EnterKey)) == s
  {
  }

  /** Previous and Next are no-ops exactly at the boundary where they are disabled. */
  lemma NavigationNoOpAtBoundary(s: State)
    ensures PreviousPage(s) == s <==> s.currentPage == 1
    ensures NextPageOf(s) == s <==> s.currentPage == TotalPagesOf(s)
  {
    if PreviousPage(s) == s {
      assert PreviousPage(s).currentPage == s.currentPage;
    }
    if NextPageOf(s) == s {
      assert NextPageOf(s).currentPage == s.currentPage;
    }
  }

  /** A search whose request succeeds with an array shows exactly that array, from page 1, with no error. */
  lemma SearchReplacesResults(s: State, send: ApiClient.Params -> ApiClient.Transport, items: seq<Holiday>)
    requires IsFormValid(s)
    requires var p := ApiClient.BuildParams(s.country.value, s.year.value, s.month, Some(s.search), s.holidayType);
      ApiClient.Resolves(send(p)) && send(p).reply.data == ApiClient.JsonArray(items)
    ensures var r := Search(s, send);
      r.holidays == items && r.currentPage == 1 && !r.loading && r.error == None && Valid(r)
  {
  }

  /** A search whose 2xx answer is not an array keeps the old results and shows the error. */
  lemma SearchRejectsNonArray(s: State, send: ApiClient.Params -> ApiClient.Transport)
    requires IsFormValid(s)
    requires var p := ApiClient.BuildParams(s.country.value, s.year.value, s.month, Some(s.search), s.holidayType);
      ApiClient.Resolves(send(p)) && !send(p).reply.data.JsonArray?
    ensures var r := Search(s, send);
      r.holidays == s.holidays && r.currentPage == s.currentPage && !r.loading
      && r.error == Some(FetchErrorMessage)
  {
  }

  /** Because the query client swallows failures, a failed request ends like an
      empty success: no results, page 1, and no error message. */
  lemma FailedRequestLooksEmpty(s: State, send: ApiClient.Params -> ApiClient.Transport)
    requires IsFormValid(s)
    requires !ApiClient.Resolves(send(ApiClient.BuildParams(s.country.value, s.year.value, s.month,
                                                           Some(s.search), s.holidayType)))
    ensures var r := Search(s, send);
      r.holidays == [] && r.currentPage == 1 && !r.loading && r.error == None
    ensures Search(s, send) == Search(s, _ => ApiClient.Replied(ApiClient.Reply(200, ApiClient.JsonArray([]))))
  {
  }

  /** Two answers in flight: a keyboard search started while the first was
      loading. The first answer arrives, the user pages to page 3, and then
      the second answer lands, replacing the results and rewinding to page 1. */
  lemma LateAnswerRewinds(s: State, first: seq<Holiday>, second: seq<Holiday>)
    requires IsFormValid(s) && !s.loading
    requires |first| > 2 * PageSize
    ensures var run := [Press(EnterKey)] + ([Press(EnterKey)] + ([Settle(IsArray(first))] + ([GoTo(3)] + [Settle(IsArray(second))])));
      EnabledRun(s, run) && Run(s, run).currentPage == 1 && Run(s, run).holidays == second
  {
    var s1 := BeginSearch(s);
    var s2 := BeginSearch(s1);
    var s3 := CompleteSearch(s2, IsArray(first));
    var s4 := GoToPage(s3, 3);
    var s5 := CompleteSearch(s4, IsArray(second));
    assert Step(s, Press(EnterKey)) == s1 && Step(s1, Press(EnterKey)) == s2;
    assert Step(s2, Settle(IsArray(first))) == s3 && Step(s4, Settle(IsArray(second))) == s5;
    assert s3.currentPage == 1 && !s3.loading && TotalPagesOf(s3) >= 3;
    assert Shown(3, TotalPagesOf(s3), 1);
    assert Enabled(s3, GoTo(3)) && Step(s3, GoTo(3)) == s4;
    RunCons(s4, Settle(IsArray(second)), []);
    RunCons(s3, GoTo(3), [Settle(IsArray(second))]);
    RunCons(s2, Settle(IsArray(first)), [GoTo(3)] + [Settle(IsArray(second))]);
    RunCons(s1, Press(EnterKey), [Settle(IsArray(first))] + ([GoTo(3)] + [Settle(IsArray(second))]));
    RunCons(s, Press(EnterKey), [Press(EnterKey)] + ([Settle(IsArray(first))] + ([GoTo(3)] + [Settle(IsArray(second))])));
  }

  /** A run that begins with action `a` is that action followed by the rest. */
  lemma RunCons(s: State, a: Action, rest: seq<Action>)
    ensures Run(s, [a] + rest) == Run(Step(s, a), rest)
    ensures EnabledRun(s, [a] + rest) <==> Enabled(s, a) && EnabledRun(Step(s, a), rest)
  {
    assert ([a] + rest)[1..] == rest;
  }

  /** The worked example: 25 results make three pages of 10, 10 and 5. */
  lemma TwentyFiveResults(s: State)
    requires |s.holidays| == 25
    ensures TotalPagesOf(s) == 3
    ensures Visible(s.(currentPage := 1)) == s.holidays[0..10]
    ensures Visible(s.(currentPage := 3)) == s.holidays[20..25]
    ensures NextPageOf(s.(currentPage := 3)) == s.(currentPage := 3)
    ensures PreviousPage(s.(currentPage := 1)) == s.(currentPage := 1)
  {
    PageSliceContents(s.holidays, 1);
    PageSliceContents(s.holidays, 3);
  }
}

=== FILE: holiday_view.dfy ===
/** The back end's `HolidayView.get`: read the query with its defaults, answer
    from the cache when the cached list is non-empty, otherwise ask the
    upstream holiday API, filter by name, cache and answer. The cache is a
    map passed in and returned; the upstream call is the parameter `fetch`
    from URL to outcome; `BASE_URL` and `API_KEY` are plain string parameters. */
module HolidayView {
  import opened Optional
  import opened Holidays
  import opened Text

  /** `request.GET`, reduced to one value per key: a key given several times
      in the query string is represented by the value `get` returns for it,
      its last one. */
  type QueryDict = map<string, string>

  /** The five values `get` reads from the query string. */
  datatype Query = Query(country: string, year: string, month: Option<string>,
                         search: Option<string>, holidayType: Option<string>)

  function Lookup(q: QueryDict, key: string): (r: Option<string>)
    ensures r.Some? <==> key in q
    ensures r.Some? ==> r.value == q[key]
  {
    if key in q then Some(q[key]) else None
  }

  /** `request.GET.get(key, default)`: the default replaces only a missing key. */
  function GetOr(q: QueryDict, key: string, default: string): (r: string)
    ensures key in q ==> r == q[key]
    ensures key !in q ==> r == default
  {
    if key in q then q[key] else default
  }

  /** The five query values: `country` defaults to "US", `year` to "2024", the
      rest to None. A key that is present keeps its value, even an empty one. */
  function ReadQuery(q: QueryDict): (r: Query)
    ensures "country" in q ==> r.country == q["country"]
    ensures "country" !in q ==> r.country == "US"
    ensures "year" in q ==> r.year == q["year"]
    ensures "year" !in q ==> r.year == "2024"
    ensures r.month.Some? <==> "month" in q
    ensures r.search.Some? <==> "search" in q
    ensures r.holidayType.Some? <==> "type" in q
    ensures r.month.Some? ==> r.month.value == q["month"]
    ensures r.search.Some? ==> r.search.value == q["search"]
    ensures r.holidayType.Some? ==> r.holidayType.value == q["type"]
  {
    Query(GetOr(q, "country", "US"), GetOr(q, "year", "2024"),
          Lookup(q, "month"), Lookup(q, "search"), Lookup(q, "type"))
  }

  /** The cache key's five variable fields, a falsy optional standing as "all". */
  function KeyFields(qr: Query): (fields: seq<string>) {
    [qr.country, qr.year, Or(qr.month, "all"), Or(qr.holidayType, "all"), Or(qr.search, "all")]
  }

  /** Five fields joined by `_` behind the word "holidays". */
  lemma JoinFiveFields(f: seq<string>)
    requires |f| == 5
    ensures Join(["holidays"] + f, '_')
         == "holidays" + "_" + (f[0] + "_" + (f[1] + "_" + (f[2] + "_" + (f[3] + "_" + f[4]))))
  {
    assert f == [f[0]] + ([f[1]] + ([f[2]] + ([f[3]] + [f[4]])));
    JoinCons(f[3], [f[4]], '_');
    JoinCons(f[2], [f[3]] + [f[4]], '_');
    JoinCons(f[1], [f[2]] + ([f[3]] + [f[4]]), '_');
    JoinCons(f[0], [f[1]] + ([f[2]] + ([f[3]] + [f[4]])), '_');
    JoinCons("holidays", f, '_');
  }

  /** The cache key: "holidays" and the five key fields joined by underscores. */
  function CacheKey(qr: Query): (key: string)
    ensures key == Join(["holidays"] + KeyFields(qr), '_')
  {
    JoinFiveFields(KeyFields(qr));
    "holidays" + "_" + (qr.country + "_" + (qr.year + "_" + (Or(qr.month, "all") + "_"
      + (Or(qr.holidayType, "all") + "_" + Or(qr.search, "all")))))
  }

  /** The key splits back into its fields when no field holds an underscore. */
  lemma CacheKeyFields(qr: Query)
    ensures NoSeparator(KeyFields(qr), '_') ==>
              Split(CacheKey(qr), '_') == ["holidays"] + KeyFields(qr)
  {
    var f := KeyFields(qr);
    var parts := ["holidays"] + f;
    if NoSeparator(f, '_') {
      assert NoSeparator(parts, '_') by {
        forall i | 0 <= i < |parts| ensures '_' !in parts[i] {
          if i > 0 {
            assert parts[i] == f[i - 1];
          }
        }
      }
      SplitJoin(parts, '_');
    }
  }

  /** An absent and an empty optional value share one cache entry, as do an absent value and the literal "all". */
  lemma CacheKeyFalsyIsAll(qr: Query)
    ensures CacheKey(qr.(month := None)) == CacheKey(qr.(month := Some("")))
    ensures CacheKey(qr.(month := None)) == CacheKey(qr.(month := Some("all")))
    ensures CacheKey(qr.(search := None)) == CacheKey(qr.(search := Some("")))
    ensures CacheKey(qr.(holidayType := None)) == CacheKey(qr.(holidayType := Some("")))
  {
  }

  /** The upstream query parameters in order: `api_key`, `country`, `year`, then
      `month` and `type` when truthy. */
  function UpstreamParams(apiKey: string, qr: Query): (ps: seq<(string, string)>)
    ensures |ps| >= 3
    ensures ps[..3] == [("api_key", apiKey), ("country", qr.country), ("year", qr.year)]
    ensures |ps| == 3 + (if Truthy(qr.month) then 1 else 0) + (if Truthy(qr.holidayType) then 1 else 0)
    ensures Truthy(qr.month) ==> ps[3] == ("month", qr.month.value)
    ensures Truthy(qr.holidayType) ==> ps[|ps| - 1] == ("type", qr.holidayType.value)
    ensures forall i :: 0 <= i < |ps| ==> ps[i].0 != "search"
  {
    [("api_key", apiKey), ("country", qr.country), ("year", qr.year)]
      + (if Truthy(qr.month) then [("month", qr.month.value)] else [])
      + (if Truthy(qr.holidayType) then [("type", qr.holidayType.value)] else [])
  }

  /** The upstream URL: the base, `?`, and the upstream parameters joined into
      a query string, appended one f-string piece at a time. */
  function UpstreamUrl(baseUrl: string, apiKey: string, qr: Query): (url: string)
    ensures url == baseUrl + "?" + JoinQuery(UpstreamParams(apiKey, qr))
  {
    var u0 := baseUrl + "?api_key=" + apiKey + "&country=" + qr.country + "&year=" + qr.year;
    var u1 := if Truthy(qr.month) then u0 + "&month=" + qr.month.value else u0;
    var url := if Truthy(qr.holidayType) then u1 + "&type=" + qr.holidayType.value else u1;
    UrlThroughMonth(baseUrl, apiKey, qr, u1);
    UrlWithType(baseUrl, apiKey, qr, u1, url);
    url
  }

  /** `key=value` for each parameter. */
  function Assignments(ps: seq<(string, string)>): (r: seq<string>)
    ensures |r| == |ps|
  {
    seq(|ps|, i requires 0 <= i < |ps| => ps[i].0 + "=" + ps[i].1)
  }

  /** A query string: the assignments joined by `&`. Nothing is escaped, as in
      the f-string that builds the URL: a key or value holding `&` or `=`
      therefore reads back as extra parameters, which is why the round trip
      below needs `PlainParams`. */
  function JoinQuery(ps: seq<(string, string)>): (query: string)
    requires |ps| >= 1
  {
    Join(Assignments(ps), '&')
  }

  /** Reading a query string back as a server would: split on `&`, then each part on `=`. */
  function SplitQuery(query: string): (ps: seq<(string, string)>) {
    var parts := Split(query, '&');
    seq(|parts|, i requires 0 <= i < |parts| =>
      var kv := Split(parts[i], '=');
      (kv[0], if |kv| > 1 then kv[1] else ""))
  }

  /** Neither separator occurs in any key or value. */
  predicate PlainParams(ps: seq<(string, string)>) {
    forall i :: 0 <= i < |ps| ==>
      '&' !in ps[i].0 && '&' !in ps[i].1 && '=' !in ps[i].0 && '=' !in ps[i].1
  }

  lemma AssignmentsSnoc(ps: seq<(string, string)>, p: (string, string))
    ensures Assignments(ps + [p]) == Assignments(ps) + [p.0 + "=" + p.1]
  {
    var l := Assignments(ps + [p]);
    var r := Assignments(ps) + [p.0 + "=" + p.1];
    forall i | 0 <= i < |l| ensures l[i] == r[i] {
      if i < |ps| {
        assert (ps + [p])[i] == ps[i];
      }
    }
  }

  lemma JoinSnoc(parts: seq<string>, last: string, sep: char)
    requires |parts| >= 1
    ensures Join(parts + [last], sep) == Join(parts, sep) + [sep] + last
    decreases |parts|
  {
    if |parts| == 1 {
      assert (parts + [last])[1..] == [last];
    } else {
      assert (parts + [last])[1..] == parts[1..] + [last];
      JoinSnoc(parts[1..], last, sep);
    }
  }

  /** Splitting a query string joined from plain parameters gives them back. */
  lemma {:induction false} QueryRoundTrip(ps: seq<(string, string)>)
    requires |ps| >= 1
    requires PlainParams(ps)
    ensures SplitQuery(JoinQuery(ps)) == ps
  {
    var a := Assignments(ps);
    forall i | 0 <= i < |a| ensures '&' !in a[i] && Split(a[i], '=') == [ps[i].0, ps[i].1] {
      assert a[i] == Join([ps[i].0, ps[i].1], '=');
      assert NoSeparator([ps[i].0, ps[i].1], '=');
      SplitJoin([ps[i].0, ps[i].1], '=');
    }
    assert NoSeparator(a, '&');
    SplitJoin(a, '&');
    var d := SplitQuery(JoinQuery(ps));
    assert |d| == |ps|;
    forall i | 0 <= i < |ps| ensures d[i] == ps[i] {
      assert Split(Split(JoinQuery(ps), '&')[i], '=') == [ps[i].0, ps[i].1];
    }
  }

  lemma UrlHead(baseUrl: string, apiKey: string, country: string, year: string)
    ensures baseUrl + "?api_key=" + apiKey + "&country=" + country + "&year=" + year
         == baseUrl + "?" + JoinQuery([("api_key", apiKey), ("country", country), ("year", year)])
  {
    var a := Assignments([("api_key", apiKey), ("country", country), ("year", year)]);
    assert "api_key" + "=" == "api_key=" && "country" + "=" == "country=" && "year" + "=" == "year=";
    assert |a| == 3 && a[0] == "api_key=" + apiKey && a[1] == "country=" + country && a[2] == "year=" + year;
    assert a[1..][1..] == ["year=" + year];
    assert Join(a[1..][1..], '&') == "year=" + year;
    assert a[1..][0] == "country=" + country;
    var tail := Join(a[1..], '&');
    assert tail == "country=" + country + ['&'] + "year=" + year;
    assert Join(a, '&') == "api_key=" + apiKey + ['&'] + tail;
    assert "?api_key=" == "?" + "api_key=";
    assert "&country=" == ['&'] + "country=";
    assert "&year=" == ['&'] + "year=";
  }

  lemma UrlAppend(baseUrl: string, ps: seq<(string, string)>, key: string, value: string)
    requires |ps| >= 1
    ensures baseUrl + "?" + JoinQuery(ps) + "&" + key + "=" + value
         == baseUrl + "?" + JoinQuery(ps + [(key, value)])
  {
    AssignmentsSnoc(ps, (key, value));
    JoinSnoc(Assignments(ps), key + "=" + value, '&');
  }

  /** The URL up to the month is the base, `?` and the encoded parameters up to the month. */
  lemma UrlThroughMonth(baseUrl: string, apiKey: string, qr: Query, u1: string)
    requires u1 == var u0 := baseUrl + "?api_key=" + apiKey + "&country=" + qr.country + "&year=" + qr.year;
      if Truthy(qr.month) then u0 + "&month=" + qr.month.value else u0
    ensures u1 == baseUrl + "?" + JoinQuery(ThroughMonth(apiKey, qr))
  {
    var head := [("api_key", apiKey), ("country", qr.country), ("year", qr.year)];
    UrlHead(baseUrl, apiKey, qr.country, qr.year);
    if Truthy(qr.month) {
      UrlAppend(baseUrl, head, "month", qr.month.value);
      assert "&month=" == "&" + "month" + "=";
    } else {
      assert head + [] == head;
    }
  }

  /** The parameters up to the month, as the URL appends them. */
  function ThroughMonth(apiKey: string, qr: Query): (ps: seq<(string, string)>)
    ensures |ps| >= 3
  {
    [("api_key", apiKey), ("country", qr.country), ("year", qr.year)]
      + (if Truthy(qr.month) then [("month", qr.month.value)] else [])
  }

  /** Appending the type, when truthy, completes the encoded upstream parameters. */
  lemma UrlWithType(baseUrl: string, apiKey: string, qr: Query, u1: string, url: string)
    requires u1 == baseUrl + "?" + JoinQuery(ThroughMonth(apiKey, qr))
    requires url == if Truthy(qr.holidayType) then u1 + "&type=" + qr.holidayType.value else u1
    ensures url == baseUrl + "?" + JoinQuery(UpstreamParams(apiKey, qr))
  {
    var withMonth := ThroughMonth(apiKey, qr);
    if Truthy(qr.holidayType) {
      UrlAppend(baseUrl, withMonth, "type", qr.holidayType.value);
      assert "&type=" == "&" + "type" + "=";
      assert UpstreamParams(apiKey, qr) == withMonth + [("type", qr.holidayType.value)];
    } else {
      assert UpstreamParams(apiKey, qr) == withMonth + [];
      assert withMonth + [] == withMonth;
    }
  }

  /** The search text never reaches the upstream URL. */
  lemma SearchNotSentUpstream(baseUrl: string, apiKey: string, qr: Query, other: Option<string>)
    ensures UpstreamUrl(baseUrl, apiKey, qr) == UpstreamUrl(baseUrl, apiKey, qr.(search := other))
  {
  }

  /** Whatever the upstream JSON holds where the view expects the holiday list:
      the list itself, or another value reduced to what the view's handling
      of it depends on — an empty or a non-empty object or string (iterable),
      or a scalar (null, a number, a boolean) with its truthiness. */
  datatype Payload =
    | HolidayArray(items: seq<Holiday>)
    | EmptyCollection
    | NonEmptyCollection
    | Scalar(truthy: bool)

  /** Python truthiness of a payload: a non-empty list or collection, or a truthy scalar. */
  predicate PayloadTruthy(p: Payload) {
    match p
    case HolidayArray(items) => |items| > 0
    case EmptyCollection => false
    case NonEmptyCollection => true
    case Scalar(t) => t
  }

  /** The upstream `response` entry: an object, with or without a `holidays`
      entry, or a value of any other kind (null included). */
  datatype UpstreamResponse = ResponseObject(holidays: Option<Payload>) | ResponseOther

  /** The decoded upstream body: an object, with or without a `response` entry,
      or a value of any other kind. */
  datatype UpstreamBody = BodyObject(response: Option<UpstreamResponse>) | BodyOther

  /** `requests.get(...)` followed by `.json()`: a decoded body, or a
      `RequestException` (connection error, timeout, undecodable body). */
  datatype Upstream = Fetched(body: UpstreamBody) | RequestFailed

  /** `json_data.get("response", {}).get("holidays", [])`: a missing entry reads
      as its default; `.get` on a value that is not an object raises an
      `AttributeError`, which is `None` here. */
  function ExtractHolidays(b: UpstreamBody): (p: Option<Payload>)
    ensures p.None? <==> b.BodyOther? || (b.response.Some? && b.response.value.ResponseOther?)
    ensures b.BodyObject? && b.response.None? ==> p == Some(HolidayArray([]))
    ensures b.BodyObject? && b.response.Some? && b.response.value.ResponseObject? ==>
              p == Some(if b.response.value.holidays.Some? then b.response.value.holidays.value
                        else HolidayArray([]))
  {
    match b
    case BodyOther => None
    case BodyObject(response) =>
      match response
      case None => Some(HolidayArray([]))
      case Some(ResponseOther) => None
      case Some(ResponseObject(holidays)) =>
        if holidays.Some? then Some(holidays.value) else Some(HolidayArray([]))
  }

  /** `search.lower() in h["name"].lower()`. */
  function NameMatches(h: Holiday, search: string): (matches: bool)
    ensures matches ==> |search| <= |h.name|
    ensures search == "" ==> matches
    ensures Lower(search) == Lower(h.name) ==> matches
  {
    assert |Lower(search)| == 0 || Lower(search) == Lower(h.name) ==> OccursAt(Lower(h.name), Lower(search), 0);
    Contains(Lower(h.name), Lower(search))
  }

  /** The search text may occur anywhere in the name, not only as all of it:
      a match survives any text added before and after the name. */
  lemma MatchInLongerName(h: Holiday, search: string, pre: string, post: string)
    requires NameMatches(h, search)
    ensures NameMatches(h.(name := pre + h.name + post), search)
  {
    var i :| 0 <= i <= |Lower(h.name)| - |Lower(search)| && OccursAt(Lower(h.name), Lower(search), i);
    LowerAppend(pre, h.name);
    LowerAppend(pre + h.name, post);
    var longer := Lower(pre + h.name + post);
    assert longer == Lower(pre) + Lower(h.name) + Lower(post);
    assert longer[|pre| + i .. |pre| + i + |search|] == Lower(h.name)[i .. i + |search|];
    assert OccursAt(longer, Lower(search), |pre| + i);
  }

  /** `sub` is `s` with some elements left out, the rest in their order. */
  predicate IsSubsequence<T(==)>(sub: seq<T>, s: seq<T>)
    decreases |s|
  {
    |sub| == 0 || (|s| > 0 && ((sub[0] == s[0] && IsSubsequence(sub[1..], s[1..])) || IsSubsequence(sub, s[1..])))
  }

  /** `[h for h in holidays if search.lower() in h["name"].lower()]` over a list:
      the matching holidays, in their order. */
  function Filtered(hs: seq<Holiday>, search: string): (r: seq<Holiday>)
    decreases |hs|
  {
    if |hs| == 0 then []
    else if NameMatches(hs[0], search) then [hs[0]] + Filtered(hs[1..], search)
    else Filtered(hs[1..], search)
  }

  lemma {:induction false} FilteredKeepsMatches(hs: seq<Holiday>, search: string)
    ensures IsSubsequence(Filtered(hs, search), hs)
    ensures forall h :: multiset(Filtered(hs, search))[h] == if NameMatches(h, search) then multiset(hs)[h] else 0
    ensures forall h :: h in Filtered(hs, search) <==> h in hs && NameMatches(h, search)
    decreases |hs|
  {
    if |hs| > 0 {
      FilteredKeepsMatches(hs[1..], search);
      var rest := Filtered(hs[1..], search);
      assert hs == [hs[0]] + hs[1..];
      if NameMatches(hs[0], search) {
        assert ([hs[0]] + rest)[1..] == rest;
      }
    }
  }

  /** The holidays whose name contains the search text, ignoring case, in their order. */
  function FilterByName(hs: seq<Holiday>, search: string): (r: seq<Holiday>)
    ensures IsSubsequence(r, hs)
    ensures forall h :: multiset(r)[h] == if NameMatches(h, search) then multiset(hs)[h] else 0
    ensures forall h :: h in r <==> h in hs && NameMatches(h, search)
  {
    FilteredKeepsMatches(hs, search);
    Filtered(hs, search)
  }

  lemma {:induction false} FilteredAppend(a: seq<Holiday>, b: seq<Holiday>, search: string)
    ensures Filtered(a + b, search) == Filtered(a, search) + Filtered(b, search)
    decreases |a|
  {
    if |a| == 0 {
      assert a + b == b;
    } else {
      assert (a + b)[0] == a[0];
      assert (a + b)[1..] == a[1..] + b;
      FilteredAppend(a[1..], b, search);
    }
  }

  /** Filtering distributes over concatenation: it never reorders across a boundary. */
  lemma FilterAppend(a: seq<Holiday>, b: seq<Holiday>, search: string)
    ensures FilterByName(a + b, search) == FilterByName(a, search) + FilterByName(b, search)
  {
    FilteredAppend(a, b, search);
  }

  lemma {:induction false} FilteredIdempotent(hs: seq<Holiday>, search: string)
    ensures Filtered(Filtered(hs, search), search) == Filtered(hs, search)
    decreases |hs|
  {
    if |hs| > 0 {
      FilteredIdempotent(hs[1..], search);
      var rest := Filtered(hs[1..], search);
      if NameMatches(hs[0], search) {
        assert ([hs[0]] + rest)[1..] == rest;
      }
    }
  }

  /** Filtering twice by the same text filters once. */
  lemma FilterIdempotent(hs: seq<Holiday>, search: string)
    ensures FilterByName(FilterByName(hs, search), search) == FilterByName(hs, search)
  {
    FilteredIdempotent(hs, search);
  }

  /** Only a truthy search filters; otherwise the list passes through unchanged. */
  function ApplySearch(hs: seq<Holiday>, search: Option<string>): (r: seq<Holiday>)
    ensures !Truthy(search) ==> r == hs
    ensures Truthy(search) ==> r == FilterByName(hs, search.value)
  {
    if Truthy(search) then FilterByName(hs, search.value) else hs
  }

  /** The search step applied to whatever `holidays` holds. A falsy search leaves it as it
      is. A truthy one filters a list by name, and turns an empty object or
      string into an empty list (iterating it yields nothing); on any other
      value the comprehension raises a `TypeError`, which is `None` here. */
  function SearchPayload(p: Payload, search: Option<string>): (r: Option<Payload>)
    ensures !Truthy(search) ==> r == Some(p)
    ensures Truthy(search) ==> (r.Some? <==> p.HolidayArray? || p.EmptyCollection?)
    ensures Truthy(search) && r.Some? ==> r.value.HolidayArray?
    ensures p.HolidayArray? ==> r == Some(HolidayArray(ApplySearch(p.items, search)))
    ensures Truthy(search) && p.EmptyCollection? ==> r == Some(HolidayArray([]))
  {
    if !Truthy(search) then Some(p)
    else
      match p
      case HolidayArray(items) => Some(HolidayArray(ApplySearch(items, search)))
      case EmptyCollection => Some(HolidayArray([]))
      case _ => None
  }

  /** What the `try` block makes of a decoded body: the payload to cache and
      return, or `None` when it raises something other than a `RequestException`. */
  function Answer(b: UpstreamBody, search: Option<string>): (r: Option<Payload>)
    ensures ExtractHolidays(b).None? ==> r.None?
    ensures ExtractHolidays(b).Some? ==> r == SearchPayload(ExtractHolidays(b).value, search)
  {
    match ExtractHolidays(b)
    case None => None
    case Some(p) => SearchPayload(p, search)
  }

  /** The Django cache as far as this view uses it: key to the cached payload. */
  type Cache = map<string, Payload>

  /** `if cached_data:` — an entry counts only when truthy, so a missing entry,
      a cached empty list and a cached falsy value are all misses. */
  function CacheHit(cache: Cache, key: string): (hit: bool)
    ensures hit ==> key in cache
    ensures key in cache && cache[key].HolidayArray? ==> (hit <==> |cache[key].items| > 0)
    ensures key in cache && (cache[key].EmptyCollection? || cache[key] == Scalar(false)) ==> !hit
  {
    key in cache && PayloadTruthy(cache[key])
  }

  const UpstreamErrorMessage: string := "Failed to fetch data from Calendarific API"

  /** A response body: a payload as JSON, the `{"error": ...}` object, or
      Django's error page for an exception the view does not catch. */
  datatype Body = Data(payload: Payload) | ErrorBody(error: string) | ServerErrorPage

  datatype Response = Response(status: int, body: Body)

  /** `HolidayView.get`: the response and the cache afterwards. */
  function Get(q: QueryDict, cache: Cache, baseUrl: string, apiKey: string,
               fetch: string -> Upstream): (out: (Response, Cache))
    ensures out.0.status == 200 <==> out.0.body.Data?
    ensures out.0.status == 200 || out.0.status == 500
    ensures var key := CacheKey(ReadQuery(q));
      CacheHit(cache, key) ==> out == (Response(200, Data(cache[key])), cache)
    ensures var qr := ReadQuery(q);
      var key := CacheKey(qr);
      var up := fetch(UpstreamUrl(baseUrl, apiKey, qr));
      !CacheHit(cache, key) && up.Fetched? && Answer(up.body, qr.search).Some? ==>
        var p := Answer(up.body, qr.search).value;
        out == (Response(200, Data(p)), cache[key := p])
    ensures var qr := ReadQuery(q);
      var up := fetch(UpstreamUrl(baseUrl, apiKey, qr));
      !CacheHit(cache, CacheKey(qr)) && up.Fetched? && Answer(up.body, qr.search).None? ==>
        out == (Response(500, ServerErrorPage), cache)
    ensures var qr := ReadQuery(q);
      !CacheHit(cache, CacheKey(qr)) && fetch(UpstreamUrl(baseUrl, apiKey, qr)).RequestFailed? ==>
        out == (Response(500, ErrorBody(UpstreamErrorMessage)), cache)
  {
    var qr := ReadQuery(q);
    var key := CacheKey(qr);
    if CacheHit(cache, key) then (Response(200, Data(cache[key])), cache)
    else
      match fetch(UpstreamUrl(baseUrl, apiKey, qr))
      case RequestFailed => (Response(500, ErrorBody(UpstreamErrorMessage)), cache)
      case Fetched(body) =>
        match Answer(body, qr.search)
        case None => (Response(500, ServerErrorPage), cache)
        case Some(p) => (Response(200, Data(p)), cache[key := p])
  }

  /** A truthy answer is served again from the cache: the repeated request
      gets the same response whatever the upstream would now say, and leaves the cache alone. */
  lemma RepeatIsServedFromCache(q: QueryDict, cache: Cache, baseUrl: string, apiKey: string,
                                fetch: string -> Upstream, later: string -> Upstream)
    requires var (resp, _) := Get(q, cache, baseUrl, apiKey, fetch);
      resp.body.Data? && PayloadTruthy(resp.body.payload)
    ensures var (resp, cache') := Get(q, cache, baseUrl, apiKey, fetch);
      Get(q, cache', baseUrl, apiKey, later) == (resp, cache')
  {
  }

  /** A falsy cached entry counts for nothing: the request goes upstream as if the entry were absent. */
  lemma EmptyEntryIsRefetched(q: QueryDict, cache: Cache, baseUrl: string, apiKey: string,
                              fetch: string -> Upstream)
    requires var key := CacheKey(ReadQuery(q)); key in cache && !PayloadTruthy(cache[key])
    ensures Get(q, cache, baseUrl, apiKey, fetch).0
         == Get(q, cache - {CacheKey(ReadQuery(q))}, baseUrl, apiKey, fetch).0
  {
  }

  /** Only the requested key's entry can change. */
  lemma GetTouchesOnlyItsKey(q: QueryDict, cache: Cache, baseUrl: string, apiKey: string,
                             fetch: string -> Upstream, other: string)
    requires other != CacheKey(ReadQuery(q))
    ensures var cache' := Get(q, cache, baseUrl, apiKey, fetch).1;
      (other in cache' <==> other in cache) && (other in cache ==> cache'[other] == cache[other])
  {
  }

  /** A `holidays` entry that is a non-empty object: without a search the view
      caches it and answers it with status 200; with a search the comprehension
      raises and the answer is Django's 500 page, with nothing cached. */
  lemma NonListHolidays(q: QueryDict, cache: Cache, baseUrl: string, apiKey: string,
                        fetch: string -> Upstream)
    requires var qr := ReadQuery(q);
      !CacheHit(cache, CacheKey(qr))
      && fetch(UpstreamUrl(baseUrl, apiKey, qr)) == Fetched(BodyObject(Some(ResponseObject(Some(NonEmptyCollection)))))
    ensures var qr := ReadQuery(q);
      var out := Get(q, cache, baseUrl, apiKey, fetch);
      (!Truthy(qr.search) ==> out == (Response(200, Data(NonEmptyCollection)), cache[CacheKey(qr) := NonEmptyCollection]))
      && (Truthy(qr.search) ==> out == (Response(500, ServerErrorPage), cache))
  {
  }
}

=== FILE: optional.dfy ===
/** Optional values and the truthiness rule that both the JavaScript front end
    and the Python back end apply to their optional string arguments.
    `None` stands for JavaScript's `null`/`undefined` and Python's `None`. */
module Optional {

  datatype Option<+T> = None | Some(value: T)

  /** A string-valued optional is truthy when it is present and non-empty:
      `""`, `null`, `undefined` and `None` are all falsy in both languages. */
  predicate Truthy(o: Option<string>) {
    o.Some? && o.value != ""
  }

  /** Python's `o or fallback` (and JavaScript's `o || fallback`) on an optional string. */
  function Or(o: Option<string>, fallback: string): (r: string)
    ensures Truthy(o) ==> r == o.value
    ensures !Truthy(o) ==> r == fallback
  {
    if Truthy(o) then o.value else fallback
  }

  /** Drops a falsy optional: what is left is either absent or a non-empty string. */
  function KeepTruthy(o: Option<string>): (r: Option<string>)
    ensures r.Some? <==> Truthy(o)
    ensures r.Some? ==> r == o
  {
    if Truthy(o) then o else None
  }
}

=== FILE: pagination.dfy ===
/** Client-side pagination of the holiday list: the page count, the slice
    shown on a page, the Previous/Next arithmetic and the window of page
    numbers with its ellipsis markers. Pages are 1-based. */
module Pagination {

  /** ITEMS_PER_PAGE. */
  const PageSize: nat := 10

  function Min(a: int, b: int): (m: int) { if a <= b then a else b }

  /** `Math.ceil(n / ITEMS_PER_PAGE)`: the fewest pages of `PageSize` items that hold `n` items. */
  function TotalPages(n: nat): (t: nat)
    ensures n <= t * PageSize
    ensures t > 0 ==> (t - 1) * PageSize < n
    ensures t == 0 <==> n == 0
  {
    (n + PageSize - 1) / PageSize
  }

  /** The cursor invariant: a page inside the result set, or page 1 of an empty one. */
  predicate PageInRange(page: int, total: nat) {
    1 <= page && (page <= total || page == 1)
  }

  /** How `Array.prototype.slice` turns an index argument into a position:
      negative indices count from the end, and both ends clamp to the sequence. */
  function SliceIndex(i: int, len: nat): (k: nat)
    ensures k <= len
    ensures 0 <= i <= len ==> k == i
    ensures len < i ==> k == len
    ensures i < 0 && len + i >= 0 ==> k == len + i
    ensures len + i < 0 ==> k == 0
  {
    if i < 0 then (if len + i < 0 then 0 else len + i)
    else if i > len then len
    else i
  }

  /** `s.slice(start, end)`. */
  function JsSlice<T>(s: seq<T>, start: int, end: int): (r: seq<T>)
    ensures |r| <= |s|
    ensures 0 <= start <= end <= |s| ==> r == s[start..end]
    ensures 0 <= end <= start ==> r == []
    ensures forall i | 0 <= i < |r| :: r[i] in s
  {
    var from := SliceIndex(start, |s|);
    var to := SliceIndex(end, |s|);
    if from < to then s[from..to] else []
  }

  /** `paginatedHolidays` for a given cursor: at most one page of items, taken
      from the list in order starting at the page's first position. */
  function PageSlice<T>(items: seq<T>, page: int): (r: seq<T>)
    ensures |r| <= PageSize
    ensures forall i | 0 <= i < |r| :: r[i] in items
    ensures page >= 1 ==> r == items[Min((page - 1) * PageSize, |items|) .. Min(page * PageSize, |items|)]
    ensures page > TotalPages(|items|) ==> r == []
  {
    JsSlice(items, (page - 1) * PageSize, page * PageSize)
  }

  /** A page inside the result set shows the items from `(page-1)*PageSize` on,
      a full page except possibly the last one, which holds the remainder. */
  lemma PageSliceContents<T>(items: seq<T>, page: int)
    requires 1 <= page <= TotalPages(|items|)
    ensures PageSlice(items, page) == items[(page - 1) * PageSize .. Min(page * PageSize, |items|)]
    ensures page < TotalPages(|items|) ==> |PageSlice(items, page)| == PageSize
    ensures page == TotalPages(|items|) && |items| % PageSize == 0 ==> |PageSlice(items, page)| == PageSize
    ensures page == TotalPages(|items|) && |items| % PageSize != 0 ==> |PageSlice(items, page)| == |items| % PageSize
    ensures 1 <= |PageSlice(items, page)| <= PageSize
  {
  }

  /** A cursor past the last page shows nothing. */
  lemma PageSliceBeyondEnd<T>(items: seq<T>, page: int)
    requires page > TotalPages(|items|)
    ensures PageSlice(items, page) == []
  {
  }

  /** Pages 1 through `k`, concatenated in order. */
  function PagesThrough<T>(items: seq<T>, k: nat): (r: seq<T>)
    decreases k
  {
    if k == 0 then [] else PagesThrough(items, k - 1) + PageSlice(items, k)
  }

  lemma {:induction false} PagesThroughIsPrefix<T>(items: seq<T>, k: nat)
    requires k <= TotalPages(|items|)
    ensures PagesThrough(items, k) == items[..Min(k * PageSize, |items|)]
    decreases k
  {
    if k > 0 {
      PagesThroughIsPrefix(items, k - 1);
      PageSliceContents(items, k);
      var lo := (k - 1) * PageSize;
      var hi := Min(k * PageSize, |items|);
      assert Min(lo, |items|) == lo;
      assert items[..lo] + items[lo..hi] == items[..hi];
    }
  }

  /** The pages partition the result set: read one after another, they give it back exactly. */
  lemma PagesPartition<T>(items: seq<T>)
    ensures PagesThrough(items, TotalPages(|items|)) == items
  {
    PagesThroughIsPrefix(items, TotalPages(|items|));
    assert items[..|items|] == items;
  }

  /** Every item is shown on exactly the page its index predicts, at the matching position. */
  lemma PageOfIndex<T>(items: seq<T>, i: int)
    requires 0 <= i < |items|
    ensures 1 <= i / PageSize + 1 <= TotalPages(|items|)
    ensures i % PageSize < |PageSlice(items, i / PageSize + 1)|
    ensures PageSlice(items, i / PageSize + 1)[i % PageSize] == items[i]
  {
    var p := i / PageSize + 1;
    assert (p - 1) * PageSize <= i < p * PageSize;
    PageSliceContents(items, p);
  }

  /** The Previous button: `Math.max(prev - 1, 1)`. */
  function PrevPage(page: int): (r: int)
    ensures r >= 1
    ensures r <= page || page < 1
    ensures r == page <==> page == 1
  {
    if page - 1 >= 1 then page - 1 else 1
  }

  /** The Next button: `Math.min(prev + 1, totalPages)`. */
  function NextPage(page: int, total: nat): (r: int)
    ensures r <= total
    ensures r >= page || page > total
    ensures r == page <==> page == total
  {
    if page + 1 <= total then page + 1 else total
  }

  /** Both buttons keep the cursor inside the pages when there are pages to move between. */
  lemma NavigationStaysInRange(page: int, total: nat)
    requires total >= 1
    requires PageInRange(page, total)
    ensures PageInRange(PrevPage(page), total)
    ensures PageInRange(NextPage(page, total), total)
  {
  }

  /** Next undoes Previous and Previous undoes Next away from the boundaries. */
  lemma NavigationInverse(page: int, total: nat)
    requires 1 <= page <= total
    ensures page > 1 ==> NextPage(PrevPage(page), total) == page
    ensures page < total ==> PrevPage(NextPage(page, total)) == page
  {
  }

  /** Whether a page number is rendered: the first, the last, and those within two of the cursor. */
  predicate Shown(page: int, total: int, current: int) {
    page == 1 || page == total || (current - 2 <= page && page <= current + 2)
  }

  /** The rendered page numbers among 1..k, in increasing order. */
  function WindowThrough(total: nat, current: int, k: nat): (w: seq<nat>)
    ensures forall i :: 0 <= i < |w| ==> 1 <= w[i] <= k
    ensures forall i, j :: 0 <= i < j < |w| ==> w[i] < w[j]
    ensures forall p :: p in w <==> 1 <= p <= k && Shown(p, total, current)
    decreases k
  {
    if k == 0 then []
    else WindowThrough(total, current, k - 1) + (if Shown(k, total, current) then [k] else [])
  }

  /** `Array.from({length: totalPages}, (_, i) => i + 1).filter(...)`. */
  function PageWindow(total: nat, current: int): (w: seq<nat>)
    ensures forall i :: 0 <= i < |w| ==> 1 <= w[i] <= total
    ensures forall i, j :: 0 <= i < j < |w| ==> w[i] < w[j]
    ensures forall p :: p in w <==> 1 <= p <= total && Shown(p, total, current)
  {
    WindowThrough(total, current, total)
  }

  /** The window starts at page 1 and ends at the last page. */
  lemma WindowEndpoints(total: nat, current: int)
    requires total >= 1
    ensures |PageWindow(total, current)| >= 1
    ensures PageWindow(total, current)[0] == 1
    ensures PageWindow(total, current)[|PageWindow(total, current)| - 1] == total
  {
    var w := PageWindow(total, current);
    assert 1 in w;
    assert total in w;
    var j :| 0 <= j < |w| && w[j] == 1;
    assert w[0] <= w[j];
    var m :| 0 <= m < |w| && w[m] == total;
    assert w[m] <= w[|w| - 1];
  }

  /** One rendered page number, with the ellipsis that may precede it. */
  datatype PageLink = PageLink(ellipsisBefore: bool, page: nat)

  /** The `.map((page, index, arr) => ...)` over the window: an ellipsis before
      `arr[index]` when `index > 0 && page !== arr[index - 1] + 1`. */
  function Links(w: seq<nat>): (r: seq<PageLink>)
    ensures |r| == |w|
    ensures forall i :: 0 <= i < |w| ==> r[i].page == w[i]
  {
    seq(|w|, i requires 0 <= i < |w| => PageLink(i > 0 && w[i] != w[i - 1] + 1, w[i]))
  }

  /** A page strictly between two neighbours of the window is not rendered. */
  lemma SkippedPageHidden(total: nat, current: int, i: int, p: int)
    requires 0 < i < |PageWindow(total, current)|
    requires PageWindow(total, current)[i - 1] < p < PageWindow(total, current)[i]
    ensures !Shown(p, total, current)
  {
  }

  /** An ellipsis appears exactly where page numbers were skipped, and every skipped page is one the window hides. */
  lemma EllipsisMarksGaps(total: nat, current: int)
    ensures var w := PageWindow(total, current);
      forall i :: 0 < i < |w| ==> (Links(w)[i].ellipsisBefore <==> w[i - 1] + 1 < w[i])
    ensures var w := PageWindow(total, current);
      forall i, p :: 0 < i < |w| && w[i - 1] < p < w[i] ==> !Shown(p, total, current)
  {
    var w := PageWindow(total, current);
    forall i, p | 0 < i < |w| && w[i - 1] < p < w[i]
      ensures !Shown(p, total, current)
    {
      SkippedPageHidden(total, current, i, p);
    }
  }

  /** With the cursor on a real page there are at most two ellipses: one after
      the first page number and one before the last. */
  lemma AtMostTwoEllipses(total: nat, current: int)
    requires 1 <= current <= total
    ensures var w := PageWindow(total, current);
      forall i :: 0 < i < |w| && Links(w)[i].ellipsisBefore ==> i == 1 || i == |w| - 1
  {
    var w := PageWindow(total, current);
    WindowEndpoints(total, current);
    EllipsisMarksGaps(total, current);
    forall i | 0 < i < |w| && Links(w)[i].ellipsisBefore
      ensures i == 1 || i == |w| - 1
    {
      var p := w[i - 1] + 1;
      assert !Shown(p, total, current);
      if p < current - 2 {
        // the page before the gap lies below the cursor window, so it is page 1
        assert Shown(w[i - 1], total, current);
        assert w[i - 1] == 1;
        assert w[0] <= w[i - 1];
      } else {
        // the page after the gap lies above the cursor window, so it is the last page
        assert Shown(w[i], total, current);
        assert w[i] == total;
        assert w[i] <= w[|w| - 1];
      }
    }
  }
}

=== FILE: text.dfy ===
/** String helpers shared by the back end: splitting and joining on a
    separator character (used to read back the cache key and the upstream
    query string), ASCII lower-casing and substring search. */
module Text {

  /** Python's `s.split(sep)` for a one-character separator: always at least one part. */
  function Split(s: string, sep: char): (parts: seq<string>)
    ensures |parts| >= 1
    ensures forall i :: 0 <= i < |parts| ==> sep !in parts[i]
    decreases |s|
  {
    if |s| == 0 then [""]
    else
      var rest := Split(s[1..], sep);
      if s[0] == sep then [""] + rest
      else [[s[0]] + rest[0]] + rest[1..]
  }

  /** `sep.join(parts)`. */
  function Join(parts: seq<string>, sep: char): (joined: string)
    requires |parts| >= 1
    decreases |parts|
  {
    if |parts| == 1 then parts[0] else parts[0] + [sep] + Join(parts[1..], sep)
  }

  /** One unfolding of `Join` on a list given as head and tail. */
  lemma JoinCons(head: string, rest: seq<string>, sep: char)
    requires |rest| >= 1
    ensures Join([head] + rest, sep) == head + [sep] + Join(rest, sep)
  {
    assert ([head] + rest)[1..] == rest;
  }

  predicate NoSeparator(parts: seq<string>, sep: char) {
    forall i :: 0 <= i < |parts| ==> sep !in parts[i]
  }

  /** A separator-free prefix glues onto the first part of what follows it. */
  lemma {:induction false} SplitGluesPrefix(a: string, rest: string, sep: char)
    requires sep !in a
    ensures Split(a + rest, sep) == [a + Split(rest, sep)[0]] + Split(rest, sep)[1..]
    decreases |a|
  {
    if |a| == 0 {
      assert a + rest == rest;
      var tail := Split(rest, sep);
      assert a + tail[0] == tail[0];
      assert [tail[0]] + tail[1..] == tail;
    } else {
      assert (a + rest)[1..] == a[1..] + rest;
      assert sep !in a[1..] by {
        forall k | 0 <= k < |a[1..]| ensures a[1..][k] != sep {
          assert a[1..][k] == a[k + 1];
        }
      }
      SplitGluesPrefix(a[1..], rest, sep);
      var tail := Split(rest, sep);
      var r := Split(a[1..] + rest, sep);
      assert r[0] == a[1..] + tail[0] && r[1..] == tail[1..];
      assert (a + rest)[0] == a[0] != sep;
      assert Split(a + rest, sep) == [[a[0]] + r[0]] + r[1..];
      assert [a[0]] + (a[1..] + tail[0]) == a + tail[0];
    }
  }

  /** Splitting a join gives back the parts, as long as no part holds the separator. */
  lemma {:induction false} SplitJoin(parts: seq<string>, sep: char)
    requires |parts| >= 1
    requires NoSeparator(parts, sep)
    ensures Split(Join(parts, sep), sep) == parts
    decreases |parts|
  {
    if |parts| == 1 {
      SplitGluesPrefix(parts[0], "", sep);
      assert parts[0] + "" == parts[0];
    } else {
      var tail := Join(parts[1..], sep);
      assert NoSeparator(parts[1..], sep) by {
        forall i | 0 <= i < |parts[1..]| ensures sep !in parts[1..][i] {
          assert parts[1..][i] == parts[i + 1];
        }
      }
      SplitJoin(parts[1..], sep);
      assert sep !in parts[0] by { assert parts[0] == parts[0]; }
      var sepTail := [sep] + tail;
      assert Join(parts, sep) == parts[0] + sepTail;
      SplitGluesPrefix(parts[0], sepTail, sep);
      assert sepTail[1..] == tail;
      assert Split(sepTail, sep) == [""] + parts[1..];
      assert parts[0] + "" == parts[0];
      assert [parts[0]] + parts[1..] == parts;
    }
  }

  /** ASCII lower-casing of one character; other characters are left alone. */
  function LowerChar(c: char): (d: char)
    ensures 'A' <= c <= 'Z' ==> 'a' <= d <= 'z'
    ensures !('A' <= c <= 'Z') ==> d == c
  {
    if 'A' <= c <= 'Z' then (c as int - 'A' as int + 'a' as int) as char else c
  }

  /** `s.lower()` restricted to ASCII letters. */
  function Lower(s: string): (r: string)
    ensures |r| == |s|
    ensures forall i :: 0 <= i < |s| ==> r[i] == LowerChar(s[i])
    ensures forall i :: 0 <= i < |r| ==> !('A' <= r[i] <= 'Z')
  {
    seq(|s|, i requires 0 <= i < |s| => LowerChar(s[i]))
  }

  /** Lower-casing works character by character, so it distributes over concatenation. */
  lemma LowerAppend(a: string, b: string)
    ensures Lower(a + b) == Lower(a) + Lower(b)
  {
    assert forall i | 0 <= i < |a + b| :: Lower(a + b)[i] == (Lower(a) + Lower(b))[i];
  }

  /** Python's `needle in hay` on strings: `needle` occurs at some offset of `hay`. */
  predicate Contains(hay: string, needle: string) {
    exists i | 0 <= i <= |hay| - |needle| :: OccursAt(hay, needle, i)
  }

  predicate OccursAt(hay: string, needle: string, i: int)
    requires 0 <= i <= |hay| - |needle|
  {
    hay[i..i + |needle|] == needle
  }
}
